=== FILE: README.md ===
# Sticker Sketchpad: a Dafny model of its drawing history

The sketchpad is a browser canvas on which the user draws freehand strokes,
switches between a thin and a thick marker, and can clear, undo and redo.
Its one piece of logic, in `src/main.ts`, is made of the following parts:

- a list of visible strokes (`lines`);
- a stack of undone strokes (`redoLines`);
- a drag flag (`isDrawing`);
- the selected tool (`currentMarkerThickness`, `currentMarkerPreview`);
- a cursor preview;
- event handlers that change these and ask the canvas to redraw.

This project models that logic as pure functions over an immutable state
record and proves properties of it.

- `drawing.dfy` (`Drawing`, `Options`): points, strokes (`lineCommand`) and
  the cursor preview (`CursorCommand`), plus the two operations on strokes:
  begin one at a point, and grow one by a point.
- `sketchpad.dfy` (`Sketchpad`): the state record, the initial state, and one
  transition per handler. The handlers are mousedown, mousemove, mouseup,
  mouseleave and mouseenter, and the CLEAR, UNDO, REDO, THIN and THICK buttons.
- `history.dfy` (`History`): the undo/redo stack discipline. UNDO and REDO are
  inverse moves over one timeline, `lines` followed by `redoLines` reversed,
  and neither changes that timeline. The file also covers N undos followed by
  N redos, no-op clicks, REDO after CLEAR, and how drawing discards the undone
  strokes.
- `events.dfy` (`Events`): events, traces of events, and the invariants that
  hold along every admissible trace (no UNDO during a drag; see "Left out"). Every stroke has a first point, so `points[0]` in
  `execute` is always defined. Every stroke carries a tool's thickness.
  During a drag there is nothing to redo. Strokes only grow at the end and
  never change thickness.
- `surface.dfy` (`Surface`): the canvas calls the sketchpad makes, as data,
  with a small semantics of what each call leaves visible.
- `render.dfy` (`Render`): what `execute` and the redraw listener emit, and
  what that leaves on the surface. A redraw shows exactly the strokes, in
  order, whatever the surface showed before. Redrawing is idempotent, and the
  marks a redraw leaves determine the strokes.
- `screen.dfy` (`Screen`): the calls each handler makes through its
  synchronous redraw and cursor requests, and the visible result after each
  event.
- `scenarios.dfy` (`Scenarios`): whole interaction sequences. These are N
  clicks then N undos then N redos, branching after an undo, and selecting a
  tool before a stroke.

Event coordinates are integers, already relative to the canvas.

Three facts about the code shape the model:

- Despite the program's name, it has no sticker drawables. Only strokes and
  a cursor glyph exist.
- CLEAR empties `lines` and wipes the canvas directly, without a redraw
  request. It keeps `redoLines`, so a REDO after CLEAR brings strokes back
  (`History.RedoAfterClear`).
- While a drag is in progress, each mousemove first draws the cursor preview.
  It then issues a second redraw that wipes the preview. So the preview is
  left on screen by a mousemove outside a drag, a mouseenter or a
  mouseleave, until the next handler that draws (`Screen.ScreenAfterEvent`,
  `Screen.CursorShown`, `Screen.SilentHandlers`).

## Model

| member | source | states |
|---|---|---|
| `Drawing.Begin` | src/main.ts:65-68 | A new stroke holds exactly the pressed point, so it can be replayed, and it captures the marker thickness of that moment |
| `Drawing.Grow` | src/main.ts:81-83 | Growing a stroke appends one point after all the old ones, in order, and keeps its thickness |
| `Sketchpad.PreviewAt` | src/main.ts:92-102 | A cursor preview sits at the pointer and takes its size and glyph from the tool selected when it is made |
| `Sketchpad.MouseDown` | src/main.ts:131-142 | mousedown appends one stroke whose points are exactly the pressed point and whose thickness is the current one. It keeps all earlier strokes, empties the redo stack, starts the drag, and changes neither the tool nor the cursor |
| `Sketchpad.MouseMove` | src/main.ts:145-159 | mousemove always moves the cursor preview. During a drag it appends the point to the last stroke only. Outside a drag no stroke changes. It never changes the stroke count, the redo stack, the drag flag or the tool |
| `Sketchpad.MouseUp` | src/main.ts:162-165 | mouseup ends the drag and changes neither the strokes nor the redo stack |
| `Sketchpad.MouseLeave` | src/main.ts:168-176 | mouseleave ends the drag and moves the cursor preview to the exit point, with strokes and redo stack unchanged |
| `Sketchpad.MouseEnter` | src/main.ts:179-185 | mouseenter only moves the cursor preview |
| `Sketchpad.Clear` | src/main.ts:203-206 | CLEAR empties `lines` and leaves the redo stack, drag flag, tool and cursor as they were |
| `Sketchpad.Undo` | src/main.ts:209-214 | UNDO with strokes visible moves the last one onto the top of the redo stack and changes nothing else. With none visible it is a no-op. The total number of strokes is kept |
| `Sketchpad.Redo` | src/main.ts:217-222 | REDO with a non-empty redo stack moves its top to the end of `lines` and changes nothing else. With an empty stack it is a no-op. The total number of strokes is kept |
| `Sketchpad.SelectThin` | src/main.ts:225-229 | THIN selects thickness 3 and preview `*` and changes no stroke, shown or undone |
| `Sketchpad.SelectThick` | src/main.ts:232-236 | THICK selects thickness 10 and preview `o` and changes no stroke, shown or undone |
| `History.UndoKeepsTimeline` | src/main.ts:209-214 | UNDO leaves the timeline (visible strokes, then undone ones newest first) unchanged |
| `History.RedoKeepsTimeline` | src/main.ts:217-222 | REDO leaves the same timeline unchanged |
| `History.RedoUndoes` | src/main.ts:209-222 | An effective UNDO followed by REDO restores the exact prior state |
| `History.UndoUndoesRedo` | src/main.ts:209-222 | An effective REDO followed by UNDO restores the exact prior state |
| `History.UndoTimesMoves` | src/main.ts:209-214 | With the visible strokes ending in a block m, \|m\| UNDOs leave exactly the strokes before m visible. They push m onto the redo stack, last stroke first, and change no setting |
| `History.RedoTimesMoves` | src/main.ts:217-222 | With the redo stack ending in a block q, \|q\| REDOs leave exactly the rest of the stack. They append q to the visible strokes, top of the stack first, and change no setting |
| `History.UndoTimesMovesSuffix` | src/main.ts:209-214 | n UNDOs with at least n strokes visible leave the first strokes visible. The last n go onto the redo stack in reverse order. Nothing else changes |
| `History.RedoTimesAfterUndoTimes` | src/main.ts:209-222 | n REDOs after n effective UNDOs restore the exact prior state |
| `History.IdleClicksChangeNothing` | src/main.ts:210-222 | Any number of UNDOs on an empty canvas, or REDOs on an empty redo stack, change nothing |
| `History.RedoAfterClear` | src/main.ts:203-222 | Because CLEAR keeps the redo stack, REDO after CLEAR shows exactly the most recently undone stroke |
| `History.DrawingDiscardsUndone` | src/main.ts:137-139 | Starting a stroke after any number of UNDOs leaves nothing to redo. The timeline becomes the still-visible strokes plus the new one |
| `Events.InitialReachable` | src/main.ts:117-127 | The page-load state satisfies every invariant: no strokes, thin marker, no cursor preview, and not drawing (the flag's initial value is at src/main.ts:43) |
| `Events.StepSound` | src/main.ts:131-236 | Every handler keeps every stroke non-empty, so `points[0]` is defined. Every stroke keeps a tool's thickness, the tool stays one of the two, and the cursor preview, once there, shows one of them |
| `Events.RunReachable` | src/main.ts:131-236 | Along any admissible event trace (no UNDO during a drag) from a state satisfying the invariants, the invariants hold, including "nothing to redo during a drag" |
| `Events.StrokesOnlyGrow` | src/main.ts:62-84 | For every event, each stroke position present before and after keeps its thickness and its old points as a prefix. All positions but the last are untouched, and the redo stack is never edited in place (in the model; see UNDO during a drag under Left out) |
| `Events.IdleMovesKeepStrokes` | src/main.ts:155-157 | Outside a drag, any sequence of pointer moves leaves the strokes and the redo stack unchanged |
| `Events.DragGrowsLast` | src/main.ts:145-159 | During a drag, a sequence of moves appends exactly those points to the last stroke and changes no other stroke (in the model; see UNDO during a drag under Left out) |
| `Events.Gesture` | src/main.ts:131-165 | Press, drag through points, release adds one stroke through the pressed point and then the dragged ones, with the selected thickness, and leaves nothing to redo |
| `Render.ReplayStroke` | src/main.ts:70-79 | `execute` as a loop emits the calls of `Render.StrokeOps`, the model of `lineCommand.execute`: set-width, begin, move-to-first, line-to-every-point, stroke |
| `Render.ReplayLines` | src/main.ts:188-193 | The redraw listener as a loop emits the calls of `Render.Redraw`: a clear followed by each stroke's replay in draw order |
| `Render.PaintStroke` | src/main.ts:70-79 | Replaying a stroke adds exactly one path at its own thickness, starting at its first point and passing through all its points |
| `Render.RedrawShowsLines` | src/main.ts:188-193 | After a redraw the visible content is exactly the strokes of `lines`, in order, whatever was there before |
| `Render.RedrawIdempotent` | src/main.ts:188-193 | Redrawing twice with the same `lines` leaves the surface as redrawing once |
| `Render.RedrawDeterminesLines` | src/main.ts:70-79 | Two redraws that leave the same marks replayed the same strokes, with the same points and thicknesses |
| `Render.PaintCursor` | src/main.ts:103-110 | The calls of `Render.CursorOps`, the model of `CursorCommand.execute`, draw the glyph on top at (x - size, y + size) in a font of size * 4. They leave that font set and change neither the line width nor the path |
| `Screen.SilentHandlers` | src/main.ts:131-236 | `Screen.Output` lists the canvas calls each handler makes through its redraw and cursor requests, or CLEAR's direct clear. A handler draws nothing exactly when it is THIN, THICK, UNDO with nothing visible, or REDO with nothing to redo |
| `Screen.ScreenAfterEvent` | src/main.ts:131-222 | After any handler that draws, as `Screen.Output` lists its calls, the surface shows exactly the new state's strokes in order. The cursor glyph is on top exactly for enter, leave and moves outside a drag |
| `Scenarios.TapCommits` | src/main.ts:131-165 | One click at a point commits exactly the one-point stroke at that point with the current thickness, ends the drag and leaves nothing to redo |
| `Scenarios.TapsCommit` | src/main.ts:131-165 | Clicking at each of several points commits one single-point stroke per click, in order, with the current thickness. Nothing is left to redo |
| `Screen.ScreenAfterMove` | src/main.ts:145-159 | After a mousemove the surface shows the new strokes. The cursor glyph stays on top exactly when no drag is in progress |
| `Scenarios.CommitUndoRedo` | src/main.ts:209-222 | N clicks then N UNDOs restore the strokes and put the N new strokes on the redo stack in reverse click order. N REDOs then restore them in click order |
| `Scenarios.BranchDiscardsRedo` | src/main.ts:131-142 | Strokes A and B, then UNDO, then stroke C leave A and C visible and nothing to redo |
| `Scenarios.ToolChangeAffectsOnlyNewStrokes` | src/main.ts:225-236 | THIN then THICK before a stroke gives the new stroke thickness 10. Earlier strokes keep theirs |

## Left out

- DOM construction: the title, the buttons, their labels and the canvas
  element's creation and its 256 × 256 size. A clear wipes the whole
  surface, so the size plays no part. This part of the code is page set-up
  with no logic.
- Converting client coordinates with `getBoundingClientRect`, and JavaScript
  floating-point coordinates. Event points are integers already relative to
  the canvas.
- The `lastX`/`lastY` globals. They only carry the event point into the
  constructors, which take it directly in the model.
- The `Event` objects, `dispatchEvent` and `console.log`. Dispatch is
  synchronous, so each handler's drawing is modelled as the list of canvas
  calls it makes (`Screen.Output`).
- UNDO during a drag. With the mouse button held on the canvas, the UNDO
  button can still be clicked from the keyboard (Tab to it, press Enter).
  `isDrawing` then stays true, and `currentLine` keeps pointing at the stroke
  just moved onto the redo stack. Later mousemoves grow that undone stroke,
  and it comes back grown on REDO (src/main.ts:157, 219). The model's
  mousemove grows the last of `lines` instead. From the trace
  `[Down(a), Up, Down(p), UndoClick, Move(q)]` it grows the already
  committed stroke A to `[a, q]` (`Scenarios.UndoMidDragGrowsCommitted`). The invariants are stated only for traces
  without this event (`Events.Deliverable`, `Events.Admissible`).
- The real `CanvasRenderingContext2D`: pixels, anti-aliasing, font family
  and a missing 2D context (the `?.` calls). A stroked path or a filled text
  is one abstract mark, and a font is its pixel size.
- The initial `clearRect` at page load. The model starts from a surface that
  can hold anything, and every result about a redraw holds whatever the
  surface showed before.

=== FILE: drawing.dfy ===
/** The recorded content of the sketchpad: surface points, freehand strokes
    (the `lineCommand` class) and the cursor preview (the `CursorCommand`
    class). */
module Drawing {

  /** A surface coordinate in canvas pixels, relative to the top-left corner. */
  datatype Point = Point(x: int, y: int)

  /** One freehand stroke: the points it passes through, in the order they
      were recorded, and the marker thickness captured when it was started. */
  datatype Stroke = Stroke(points: seq<Point>, thickness: int)

  /** The cursor preview: a glyph drawn at the pointer position, with the
      size and glyph of the marker selected when the preview was made. */
  datatype Cursor = Cursor(at: Point, size: int, glyph: string)

  /** A stroke can be replayed only when it has a first point to move to. */
  predicate Replayable(st: Stroke) {
    |st.points| > 0
  }

  /** Every stroke of `lines` can be replayed. */
  predicate AllReplayable(lines: seq<Stroke>) {
    forall i :: 0 <= i < |lines| ==> Replayable(lines[i])
  }

  /** Starts a stroke at `p` with the given marker thickness: the stroke is
      seeded with exactly one point, so it is replayable from birth. */
  function Begin(p: Point, thickness: int): (st: Stroke)
    ensures Replayable(st)
    ensures |st.points| == 1 && st.points[0] == p
    ensures st.thickness == thickness
  {
    Stroke([p], thickness)
  }

  /** Extends a stroke by one point. Growing only appends: the old points
      stay, in order, in front of the new one, and the thickness captured
      at creation is kept. */
  function Grow(st: Stroke, p: Point): (g: Stroke)
    ensures Replayable(g)
    ensures |g.points| == |st.points| + 1
    ensures g.points[..|st.points|] == st.points
    ensures g.points[|st.points|] == p
    ensures g.thickness == st.thickness
  {
    Stroke(st.points + [p], st.thickness)
  }

  /** Concatenation is associative; stated once, generically, so proofs
      about states need not rediscover it. */
  lemma AppendAssoc<T>(a: seq<T>, b: seq<T>, c: seq<T>)
    ensures (a + b) + c == a + (b + c)
  {
  }

  /** A sequence is its first `k` elements followed by the rest. */
  lemma TakeDrop<T>(a: seq<T>, k: nat)
    requires k <= |a|
    ensures a[..k] + a[k..] == a
  {
  }

  /** Two sequences that agree after their last elements are dropped, and
      on those last elements, are equal, and conversely. */
  lemma SnocInjective<T>(a: seq<T>, x: T, b: seq<T>, y: T)
    requires a + [x] == b + [y]
    ensures a == b && x == y
  {
    assert a == (a + [x])[..|a|];
    assert b == (b + [y])[..|b|];
  }

  /** `a` is a prefix of `b`. */
  predicate IsPrefix<T(==)>(a: seq<T>, b: seq<T>) {
    |a| <= |b| && b[..|a|] == a
  }
}

/** A value that may be absent (the cursor preview before the pointer has
    ever been over the canvas). */
module Options {
  datatype Option<T> = None | Some(value: T)
}

=== FILE: events.dfy ===
/** The sketchpad as an event-driven machine: every input event maps to one
    transition, traces of events are run in order, and the invariants of the
    state hold along every admissible trace. */
module Events {
  import opened Drawing
  import opened Options
  import opened Sketchpad

  /** The inputs the sketchpad listens to. */
  datatype Event =
    | Down(p: Point)
    | Move(p: Point)
    | Up
    | Leave(p: Point)
    | Enter(p: Point)
    | ClearClick
    | UndoClick
    | RedoClick
    | ThinClick
    | ThickClick

  /** The handler each event runs. */
  function Step(s: State, e: Event): State {
    match e
    case Down(p) => MouseDown(s, p)
    case Move(p) => MouseMove(s, p)
    case Up => MouseUp(s)
    case Leave(p) => MouseLeave(s, p)
    case Enter(p) => MouseEnter(s, p)
    case ClearClick => Clear(s)
    case UndoClick => Undo(s)
    case RedoClick => Redo(s)
    case ThinClick => SelectThin(s)
    case ThickClick => SelectThick(s)
  }

  /** The handlers of a trace of events, in delivery order. */
  function Run(s: State, es: seq<Event>): State
    decreases |es|
  {
    if es == [] then s else Run(Step(s, es[0]), es[1..])
  }

  /** The events the model covers: no UNDO in the middle of a drag. Such
      an UNDO is possible from the keyboard while the mouse button is held
      on the canvas; the program then keeps growing the undone stroke
      through `currentLine`, which this model, growing the last of `lines`,
      does not follow. */
  predicate Deliverable(s: State, e: Event) {
    e.UndoClick? ==> !s.isDrawing
  }

  /** Every event of the trace is deliverable in the state it meets. */
  predicate Admissible(s: State, es: seq<Event>)
    decreases |es|
  {
    es == [] || (Deliverable(s, es[0]) && Admissible(Step(s, es[0]), es[1..]))
  }

  /** The thicknesses a stroke can carry. */
  predicate ToolThickness(t: int) {
    t == ThinThickness || t == ThickThickness
  }

  /** Every stroke can be replayed and carries a tool's thickness. */
  predicate SoundStrokes(lines: seq<Stroke>) {
    forall i :: 0 <= i < |lines| ==> Replayable(lines[i]) && ToolThickness(lines[i].thickness)
  }

  /** Invariants that hold after any event whatsoever: every stroke, shown
      or undone, has a first point and a tool's thickness, the selected
      tool is one of the two, and the cursor preview, once there, shows one
      of them. */
  predicate Sound(s: State) {
    && SoundStrokes(s.lines)
    && SoundStrokes(s.redoLines)
    && IsTool(s.currentMarkerThickness, s.currentMarkerPreview)
    && (s.cursor.Some? ==> IsTool(s.cursor.value.size, s.cursor.value.glyph))
  }

  /** The invariant of the states reached by admissible traces from
      `Initial`: sound, and during a drag there is nothing to redo, so no
      REDO can push a stroke after the one being drawn. An UNDO during a
      drag, which admissible traces exclude, breaks the second part. */
  predicate Reachable(s: State) {
    Sound(s) && (s.isDrawing ==> s.redoLines == [])
  }

  /** The page-load state satisfies the invariant. */
  lemma InitialReachable()
    ensures Reachable(Initial)
  {
  }

  /** Every handler keeps the state sound. */
  lemma StepSound(s: State, e: Event)
    requires Sound(s)
    ensures Sound(Step(s, e))
  {
    var r := Step(s, e);
    match e
    case Down(p) => {
      SoundSnoc(s.lines, Begin(p, s.currentMarkerThickness));
    }
    case Move(p) => {
      if s.isDrawing && s.lines != [] {
        var n := |s.lines|;
        var last := s.lines[n - 1];
        assert s.lines == s.lines[..n - 1] + [last];
        SoundSplit(s.lines[..n - 1], last);
        SoundSnoc(s.lines[..n - 1], Grow(last, p));
      }
    }
    case UndoClick => {
      if s.lines != [] {
        var last := s.lines[|s.lines| - 1];
        SoundSplit(r.lines, last);
        SoundSnoc(s.redoLines, last);
      }
    }
    case RedoClick => {
      if s.redoLines != [] {
        var top := s.redoLines[|s.redoLines| - 1];
        SoundSplit(r.redoLines, top);
        SoundSnoc(s.lines, top);
      }
    }
    case _ => {
    }
  }

  /** Appending a sound stroke keeps a list of strokes sound. */
  lemma SoundSnoc(lines: seq<Stroke>, st: Stroke)
    requires SoundStrokes(lines)
    requires Replayable(st) && ToolThickness(st.thickness)
    ensures SoundStrokes(lines + [st])
  {
    forall i | 0 <= i < |lines + [st]|
      ensures Replayable((lines + [st])[i]) && ToolThickness((lines + [st])[i].thickness)
    {
      if i < |lines| {
        assert (lines + [st])[i] == lines[i];
      }
    }
  }

  /** Every part of a sound list of strokes is sound. */
  lemma SoundSplit(lines: seq<Stroke>, st: Stroke)
    requires SoundStrokes(lines + [st])
    ensures SoundStrokes(lines)
    ensures Replayable(st) && ToolThickness(st.thickness)
  {
    assert (lines + [st])[|lines|] == st;
    forall i | 0 <= i < |lines|
      ensures Replayable(lines[i]) && ToolThickness(lines[i].thickness)
    {
      assert (lines + [st])[i] == lines[i];
    }
  }

  /** Every deliverable event keeps the state reachable. */
  lemma StepReachable(s: State, e: Event)
    requires Reachable(s) && Deliverable(s, e)
    ensures Reachable(Step(s, e))
  {
    StepSound(s, e);
  }

  /** Along any admissible trace, reachable states stay reachable. */
  lemma {:induction false} RunReachable(s: State, es: seq<Event>)
    requires Reachable(s) && Admissible(s, es)
    ensures Reachable(Run(s, es))
    decreases |es|
  {
    if es != [] {
      StepReachable(s, es[0]);
      RunReachable(Step(s, es[0]), es[1..]);
    }
  }

  /** Running two traces one after the other is running their concatenation. */
  lemma {:induction false} RunAppend(s: State, a: seq<Event>, b: seq<Event>)
    ensures Run(s, a + b) == Run(Run(s, a), b)
    decreases |a|
  {
    if a == [] {
      assert a + b == b;
    } else {
      assert (a + b)[0] == a[0];
      assert (a + b)[1..] == a[1..] + b;
      RunAppend(Step(s, a[0]), a[1..], b);
    }
  }

  /** Strokes only ever grow at their end, and never change thickness: for
      any event, a stroke position present before and after holds a stroke
      with the same thickness whose old points are a prefix of its new ones,
      and every position but the last is untouched. The redo stack is only
      pushed, popped or emptied, never edited. */
  lemma StrokesOnlyGrow(s: State, e: Event)
    ensures var r := Step(s, e);
      forall i :: 0 <= i < |s.lines| && i < |r.lines| ==>
        && r.lines[i].thickness == s.lines[i].thickness
        && IsPrefix(s.lines[i].points, r.lines[i].points)
        && (i < |s.lines| - 1 ==> r.lines[i] == s.lines[i])
    ensures var r := Step(s, e);
      forall i :: 0 <= i < |s.redoLines| && i < |r.redoLines| ==> r.redoLines[i] == s.redoLines[i]
  {
    var r := Step(s, e);
    if e.Move? && s.isDrawing && s.lines != [] {
      var n := |s.lines|;
      forall i | 0 <= i < n - 1
        ensures r.lines[i] == s.lines[i]
      {
        assert r.lines[i] == r.lines[..n - 1][i];
      }
      assert s.lines[n - 1].points == r.lines[n - 1].points[..|s.lines[n - 1].points|];
    }
  }

  /** After the gesture ends, pointer moves no longer change any stroke. */
  lemma {:induction false} IdleMovesKeepStrokes(s: State, ps: seq<Point>)
    requires !s.isDrawing
    ensures Run(s, MovesTo(ps)).lines == s.lines
    ensures Run(s, MovesTo(ps)).redoLines == s.redoLines
    ensures !Run(s, MovesTo(ps)).isDrawing
    decreases |ps|
  {
    if ps != [] {
      assert MovesTo(ps)[0] == Move(ps[0]);
      assert MovesTo(ps)[1..] == MovesTo(ps[1..]);
      IdleMovesKeepStrokes(MouseMove(s, ps[0]), ps[1..]);
    }
  }

  /** A pointer move to each point of `ps`, in order. */
  function MovesTo(ps: seq<Point>): (es: seq<Event>)
    ensures |es| == |ps|
    decreases |ps|
  {
    if ps == [] then [] else [Move(ps[0])] + MovesTo(ps[1..])
  }

  /** A whole gesture: press at `p`, drag through `ps`, release. It adds
      one stroke through `p` and then `ps`, with the selected thickness,
      and leaves nothing to redo. */
  lemma Gesture(s: State, p: Point, ps: seq<Point>)
    ensures var r := Run(s, [Down(p)] + MovesTo(ps) + [Up]);
      && r.lines == s.lines + [Stroke([p] + ps, s.currentMarkerThickness)]
      && r.redoLines == []
      && !r.isDrawing
  {
    var t := s.currentMarkerThickness;
    var d := MouseDown(s, p);
    var m := Run(d, MovesTo(ps));
    var n := |d.lines|;
    GestureTrace(s, p, ps);
    assert d.lines[..n - 1] == s.lines && d.lines[n - 1] == Stroke([p], t) by {
      assert d.lines == s.lines + [Begin(p, t)];
    }
    assert m.lines[..n - 1] == s.lines && m.lines[n - 1] == Stroke([p] + ps, t)
        && |m.lines| == n && m.redoLines == [] by {
      DragGrowsLast(d, ps);
    }
    assert m.lines == m.lines[..n - 1] + [m.lines[n - 1]];
  }

  /** The gesture's trace runs mousedown, the moves, then mouseup. */
  lemma GestureTrace(s: State, p: Point, ps: seq<Point>)
    ensures Run(s, [Down(p)] + MovesTo(ps) + [Up]) == MouseUp(Run(MouseDown(s, p), MovesTo(ps)))
  {
    var m := Run(MouseDown(s, p), MovesTo(ps));
    RunCons(s, Down(p), MovesTo(ps));
    RunAppend(s, [Down(p)] + MovesTo(ps), [Up]);
    RunOne(m, Up);
  }

  /** A trace runs its first event's handler, then the rest. */
  lemma RunCons(s: State, e: Event, rest: seq<Event>)
    ensures Run(s, [e] + rest) == Run(Step(s, e), rest)
  {
    assert ([e] + rest)[0] == e;
    assert ([e] + rest)[1..] == rest;
  }

  /** A trace of one event runs its handler. */
  lemma RunOne(s: State, e: Event)
    ensures Run(s, [e]) == Step(s, e)
  {
    assert [e][1..] == [];
  }

  /** During a drag, each pointer move appends its point to the last
      stroke and nothing else drawn changes. */
  lemma {:induction false} DragGrowsLast(s: State, ps: seq<Point>)
    requires s.isDrawing && s.lines != []
    ensures var r := Run(s, MovesTo(ps));
      var n := |s.lines|;
      && |r.lines| == n
      && r.lines[..n - 1] == s.lines[..n - 1]
      && r.lines[n - 1] == Stroke(s.lines[n - 1].points + ps, s.lines[n - 1].thickness)
      && r.redoLines == s.redoLines
      && r.isDrawing
      && r.currentMarkerThickness == s.currentMarkerThickness
    decreases |ps|
  {
    var n := |s.lines|;
    var last := s.lines[n - 1];
    if ps == [] {
      assert last.points + ps == last.points;
    } else {
      var m := MouseMove(s, ps[0]);
      assert Run(s, MovesTo(ps)) == Run(m, MovesTo(ps[1..])) by {
        assert MovesTo(ps)[0] == Move(ps[0]);
        assert MovesTo(ps)[1..] == MovesTo(ps[1..]);
      }
      assert m.lines[n - 1] == Stroke(last.points + [ps[0]], last.thickness);
      DragGrowsLast(m, ps[1..]);
      assert (last.points + [ps[0]]) + ps[1..] == last.points + ps;
    }
  }

}

=== FILE: history.dfy ===
/** Properties of the undo/redo history: `lines` and `redoLines` form one
    stack discipline in which UNDO and REDO are inverse moves. */
module History {
  import opened Drawing
  import opened Sketchpad

  /** `s` backwards. */
  function Reverse<T>(s: seq<T>): (r: seq<T>)
    ensures |r| == |s|
    ensures forall i :: 0 <= i < |s| ==> r[i] == s[|s| - 1 - i]
    decreases |s|
  {
    if s == [] then [] else [s[|s| - 1]] + Reverse(s[..|s| - 1])
  }

  /** The full history as a timeline: the visible strokes followed by the
      undone ones, nearest undone first. */
  function Timeline(s: State): seq<Stroke> {
    s.lines + Reverse(s.redoLines)
  }

  /** UNDO only moves the cursor of the timeline back: the timeline itself is
      unchanged. */
  lemma UndoKeepsTimeline(s: State)
    ensures Timeline(Undo(s)) == Timeline(s)
  {
    if s.lines != [] {
      var r := Undo(s);
      var x := s.lines[|s.lines| - 1];
      assert (r.redoLines)[..|r.redoLines| - 1] == s.redoLines;
      assert Reverse(r.redoLines) == [x] + Reverse(s.redoLines);
      assert Timeline(r) == r.lines + [x] + Reverse(s.redoLines);
    }
  }

  /** REDO only moves the cursor of the timeline forward. */
  lemma RedoKeepsTimeline(s: State)
    ensures Timeline(Redo(s)) == Timeline(s)
  {
    if s.redoLines != [] {
      var r := Redo(s);
      var x := s.redoLines[|s.redoLines| - 1];
      assert Reverse(s.redoLines) == [x] + Reverse(r.redoLines);
      assert Timeline(s) == s.lines + [x] + Reverse(r.redoLines);
    }
  }

  /** REDO right after an effective UNDO restores the exact prior state. */
  lemma RedoUndoes(s: State)
    requires s.lines != []
    ensures Redo(Undo(s)) == s
  {
    var u := Undo(s);
    assert u.redoLines[..|u.redoLines| - 1] == s.redoLines;
  }

  /** UNDO right after an effective REDO restores the exact prior state. */
  lemma UndoUndoesRedo(s: State)
    requires s.redoLines != []
    ensures Undo(Redo(s)) == s
  {
    var r := Redo(s);
    assert r.lines[..|r.lines| - 1] == s.lines;
  }

  /** `a` and `b` agree on everything but the strokes: drag flag, tool and
      cursor preview. */
  predicate SameSettings(a: State, b: State) {
    && a.isDrawing == b.isDrawing
    && a.currentMarkerThickness == b.currentMarkerThickness
    && a.currentMarkerPreview == b.currentMarkerPreview
    && a.cursor == b.cursor
  }

  /** `n` clicks of UNDO. */
  function UndoTimes(s: State, n: nat): State
    decreases n
  {
    if n == 0 then s else UndoTimes(Undo(s), n - 1)
  }

  /** `n` clicks of REDO. */
  function RedoTimes(s: State, n: nat): State
    decreases n
  {
    if n == 0 then s else RedoTimes(Redo(s), n - 1)
  }

  /** With `lines` ending in `m`, |m| UNDOs move `m` onto the redo stack,
      last stroke first, and change nothing else. */
  lemma {:induction false} UndoTimesMoves(s: State, l: seq<Stroke>, m: seq<Stroke>)
    requires s.lines == l + m
    ensures UndoTimes(s, |m|).lines == l
    ensures UndoTimes(s, |m|).redoLines == s.redoLines + Reverse(m)
    ensures SameSettings(UndoTimes(s, |m|), s)
    decreases |m|
  {
    if m == [] {
      assert l + m == l;
    } else {
      var k := |m| - 1;
      var x := m[k];
      var u := Undo(s);
      assert s.lines == (l + m[..k]) + [x] by {
        assert m == m[..k] + [x];
      }
      assert u.lines == l + m[..k];
      assert u.redoLines == s.redoLines + [x];
      UndoTimesMoves(u, l, m[..k]);
      assert Reverse(m) == [x] + Reverse(m[..k]);
    }
  }

  /** With `redoLines` ending in `q`, |q| REDOs move `q` back onto the end
      of `lines`, top of the stack first, and change nothing else. */
  lemma {:induction false} RedoTimesMoves(s: State, r: seq<Stroke>, q: seq<Stroke>)
    requires s.redoLines == r + q
    ensures RedoTimes(s, |q|).lines == s.lines + Reverse(q)
    ensures RedoTimes(s, |q|).redoLines == r
    ensures SameSettings(RedoTimes(s, |q|), s)
    decreases |q|
  {
    if q == [] {
      assert r + q == r;
    } else {
      var k := |q| - 1;
      var x := q[k];
      var u := Redo(s);
      assert s.redoLines == (r + q[..k]) + [x] by {
        assert q == q[..k] + [x];
      }
      assert u.redoLines == r + q[..k];
      assert u.lines == s.lines + [x];
      RedoTimesMoves(u, r, q[..k]);
      assert Reverse(q) == [x] + Reverse(q[..k]);
    }
  }

  /** Reversing twice gives the sequence back. */
  lemma ReverseReverse<T>(m: seq<T>)
    ensures Reverse(Reverse(m)) == m
  {
  }

  /** `n` UNDOs, with at least `n` strokes visible, move the last `n` strokes
      onto the redo stack, the last stroke first, and change nothing else. */
  lemma UndoTimesMovesSuffix(s: State, n: nat)
    requires n <= |s.lines|
    ensures UndoTimes(s, n).lines == s.lines[..|s.lines| - n]
    ensures UndoTimes(s, n).redoLines == s.redoLines + Reverse(s.lines[|s.lines| - n..])
    ensures SameSettings(UndoTimes(s, n), s)
  {
    var k := |s.lines| - n;
    assert s.lines == s.lines[..k] + s.lines[k..];
    UndoTimesMoves(s, s.lines[..k], s.lines[k..]);
  }

  /** After `n` effective UNDOs, `n` REDOs restore the exact prior state,
      strokes and their order included. */
  lemma RedoTimesAfterUndoTimes(s: State, n: nat)
    requires n <= |s.lines|
    ensures RedoTimes(UndoTimes(s, n), n) == s
  {
    var k := |s.lines| - n;
    var m := s.lines[k..];
    var u := UndoTimes(s, n);
    assert u.lines == s.lines[..k] && u.redoLines == s.redoLines + Reverse(m) && SameSettings(u, s) by {
      UndoTimesMovesSuffix(s, n);
    }
    var r := RedoTimes(u, n);
    assert r.lines == s.lines by {
      RedoTimesMoves(u, s.redoLines, Reverse(m));
      ReverseReverse(m);
      TakeDrop(s.lines, k);
    }
    assert r.redoLines == s.redoLines by {
      RedoTimesMoves(u, s.redoLines, Reverse(m));
    }
    assert SameSettings(r, s) by {
      RedoTimesMoves(u, s.redoLines, Reverse(m));
    }
  }

  /** UNDO on an empty canvas and REDO on an empty redo stack are no-ops, so
      clicking them any number of times changes nothing. */
  lemma {:induction false} IdleClicksChangeNothing(s: State, n: nat)
    ensures s.lines == [] ==> UndoTimes(s, n) == s
    ensures s.redoLines == [] ==> RedoTimes(s, n) == s
    decreases n
  {
    if n > 0 {
      IdleClicksChangeNothing(s, n - 1);
    }
  }

  /** CLEAR keeps the redo stack, so a REDO after CLEAR brings the most
      recently undone stroke back onto an otherwise empty canvas. */
  lemma RedoAfterClear(s: State)
    requires s.redoLines != []
    ensures Redo(Clear(s)).lines == [s.redoLines[|s.redoLines| - 1]]
  {
  }

  /** Starting a stroke after any number of UNDOs leaves nothing to redo:
      the undone strokes are gone from the timeline for good. */
  lemma DrawingDiscardsUndone(s: State, n: nat, p: Point)
    requires n <= |s.lines|
    ensures MouseDown(UndoTimes(s, n), p).redoLines == []
    ensures Timeline(MouseDown(UndoTimes(s, n), p))
         == s.lines[..|s.lines| - n] + [Begin(p, s.currentMarkerThickness)]
  {
    UndoTimesMovesSuffix(s, n);
  }
}

=== FILE: render.dfy ===
/** Replaying strokes and the cursor preview as canvas calls: the
    `execute` methods of `lineCommand` and `CursorCommand` and the redraw
    listener, together with what their calls leave visible. */
module Render {
  import opened Drawing
  import opened Surface

  /** One `LineTo` per point, in order. */
  function LineTos(ps: seq<Point>): (ops: seq<Op>)
    decreases |ps|
  {
    if ps == [] then [] else [LineTo(ps[0])] + LineTos(ps[1..])
  }

  /** The calls `lineCommand.execute` makes: set the width to the stroke's
      own thickness, begin a path, move to the first point, line to every
      point (the first one included), stroke. */
  function StrokeOps(st: Stroke): seq<Op>
    requires Replayable(st)
  {
    [SetLineWidth(st.thickness), BeginPath, MoveTo(st.points[0])] + LineTos(st.points) + [StrokePath]
  }

  /** The calls of replaying every stroke of `lines` in draw order. */
  function StrokesOps(lines: seq<Stroke>): seq<Op>
    requires AllReplayable(lines)
    decreases |lines|
  {
    if lines == [] then []
    else StrokesOps(lines[..|lines| - 1]) + StrokeOps(lines[|lines| - 1])
  }

  /** The redraw listener: clear the whole canvas, then replay `lines`. */
  function Redraw(lines: seq<Stroke>): seq<Op>
    requires AllReplayable(lines)
  {
    [ClearAll] + StrokesOps(lines)
  }

  /** The calls `CursorCommand.execute` makes. */
  function CursorOps(cur: Cursor): seq<Op> {
    [SetFont(cur.size * 4), FillText(cur.glyph, Point(cur.at.x - cur.size, cur.at.y + cur.size))]
  }

  /** What replaying one stroke leaves on the surface: one path, starting
      at the first point and passing through every point. */
  function InkOf(st: Stroke): Mark
    requires Replayable(st)
  {
    Ink(st.thickness, [[st.points[0]] + st.points])
  }

  /** What replaying `lines` leaves on the surface, in painting order. */
  function Inks(lines: seq<Stroke>): (ms: seq<Mark>)
    requires AllReplayable(lines)
    ensures |ms| == |lines|
    ensures forall i :: 0 <= i < |lines| ==> ms[i] == InkOf(lines[i])
    decreases |lines|
  {
    if lines == [] then []
    else Inks(lines[..|lines| - 1]) + [InkOf(lines[|lines| - 1])]
  }

  /** What the cursor preview leaves on the surface. */
  function GlyphOf(cur: Cursor): Mark {
    Text(cur.glyph, cur.size * 4, Point(cur.at.x - cur.size, cur.at.y + cur.size))
  }

  /** Strokes whose thickness the canvas accepts as a line width. */
  predicate Inkable(lines: seq<Stroke>) {
    AllReplayable(lines) && forall i :: 0 <= i < |lines| ==> lines[i].thickness > 0
  }

  lemma {:induction false} LineTosAppend(a: seq<Point>, b: seq<Point>)
    ensures LineTos(a + b) == LineTos(a) + LineTos(b)
    decreases |a|
  {
    if a == [] {
      assert a + b == b;
    } else {
      assert (a + b)[1..] == a[1..] + b;
      LineTosAppend(a[1..], b);
    }
  }

  /** Lining to `ps` extends the current sub-path by exactly `ps`. */
  lemma {:induction false} PaintLineTos(c: Canvas, ps: seq<Point>)
    requires c.path != []
    ensures Paint(c, LineTos(ps))
         == c.(path := c.path[..|c.path| - 1] + [c.path[|c.path| - 1] + ps])
    decreases |ps|
  {
    var n := |c.path|;
    if ps == [] {
      assert c.path[n - 1] + ps == c.path[n - 1];
      assert c.path[..n - 1] + [c.path[n - 1]] == c.path;
    } else {
      var c1 := Exec(c, LineTo(ps[0]));
      assert c1.path == c.path[..n - 1] + [c.path[n - 1] + [ps[0]]];
      PaintLineTos(c1, ps[1..]);
      assert c1.path[..n - 1] == c.path[..n - 1];
      assert (c.path[n - 1] + [ps[0]]) + ps[1..] == c.path[n - 1] + ps;
    }
  }

  /** Replaying one stroke adds exactly its ink to what is visible, and
      leaves the context with the stroke's width and path. */
  lemma PaintStroke(c: Canvas, st: Stroke)
    requires Replayable(st) && st.thickness > 0
    ensures Paint(c, StrokeOps(st))
         == c.(marks := c.marks + [InkOf(st)], lineWidth := st.thickness, path := InkOf(st).path)
  {
    var head := [SetLineWidth(st.thickness), BeginPath, MoveTo(st.points[0])];
    var c3 := c.(lineWidth := st.thickness, path := [[st.points[0]]]);
    PaintOne(c, SetLineWidth(st.thickness));
    PaintOne(Exec(c, SetLineWidth(st.thickness)), BeginPath);
    PaintAppend(c, [SetLineWidth(st.thickness)], [BeginPath]);
    PaintOne(Exec(Exec(c, SetLineWidth(st.thickness)), BeginPath), MoveTo(st.points[0]));
    PaintAppend(c, [SetLineWidth(st.thickness), BeginPath], [MoveTo(st.points[0])]);
    assert [SetLineWidth(st.thickness), BeginPath] + [MoveTo(st.points[0])] == head;
    assert Paint(c, head) == c3;
    PaintAppend(c, head, LineTos(st.points));
    PaintLineTos(c3, st.points);
    var c4 := c3.(path := [[st.points[0]] + st.points]);
    assert Paint(c, head + LineTos(st.points)) == c4;
    PaintAppend(c, head + LineTos(st.points), [StrokePath]);
    PaintOne(c4, StrokePath);
  }

  /** Replaying strokes in order appends their inks in order and leaves the
      context of the last one; replaying none changes nothing. */
  lemma {:induction false} PaintStrokes(c: Canvas, lines: seq<Stroke>)
    requires Inkable(lines)
    ensures lines == [] ==> Paint(c, StrokesOps(lines)) == c
    ensures lines != [] ==>
      Paint(c, StrokesOps(lines))
      == c.(marks := c.marks + Inks(lines),
            lineWidth := lines[|lines| - 1].thickness,
            path := InkOf(lines[|lines| - 1]).path)
    decreases |lines|
  {
    if lines != [] {
      var n := |lines|;
      var init := lines[..n - 1];
      assert Inkable(init) by {
        forall i | 0 <= i < |init|
          ensures Replayable(init[i]) && init[i].thickness > 0
        {
          assert init[i] == lines[i];
        }
      }
      PaintStrokes(c, init);
      PaintAppend(c, StrokesOps(init), StrokeOps(lines[n - 1]));
      PaintStroke(Paint(c, StrokesOps(init)), lines[n - 1]);
      assert Inks(lines) == Inks(init) + [InkOf(lines[n - 1])];
    }
  }

  /** A redraw leaves visible exactly the inks of `lines`, in draw order,
      whatever was on the surface before: no stroke is doubled and no trail
      of an earlier frame survives. */
  lemma RedrawShowsLines(c: Canvas, lines: seq<Stroke>)
    requires Inkable(lines)
    ensures Paint(c, Redraw(lines)).marks == Inks(lines)
    ensures Paint(c, Redraw(lines)).fontPx == c.fontPx
  {
    PaintAppend(c, [ClearAll], StrokesOps(lines));
    PaintStrokes(c.(marks := []), lines);
  }

  /** Redrawing twice with the same `lines` leaves the surface exactly as
      redrawing once. */
  lemma RedrawIdempotent(c: Canvas, lines: seq<Stroke>)
    requires Inkable(lines)
    ensures Paint(Paint(c, Redraw(lines)), Redraw(lines)) == Paint(c, Redraw(lines))
  {
    var c1 := Paint(c, Redraw(lines));
    PaintAppend(c, [ClearAll], StrokesOps(lines));
    PaintStrokes(c.(marks := []), lines);
    PaintAppend(c1, [ClearAll], StrokesOps(lines));
    PaintStrokes(c1.(marks := []), lines);
  }

  /** Two redraws that leave the same marks replayed the same strokes: the
      marks a redraw leaves determine `lines`, points and thicknesses
      alike. (On real pixels they need not: `[p]` and `[p, p]` look the
      same.) */
  lemma RedrawDeterminesLines(c: Canvas, d: Canvas, a: seq<Stroke>, b: seq<Stroke>)
    requires Inkable(a) && Inkable(b)
    requires Paint(c, Redraw(a)).marks == Paint(d, Redraw(b)).marks
    ensures a == b
  {
    RedrawShowsLines(c, a);
    RedrawShowsLines(d, b);
    assert |a| == |b|;
    forall i | 0 <= i < |a|
      ensures a[i] == b[i]
    {
      assert InkOf(a[i]) == InkOf(b[i]);
      assert InkOf(a[i]).path[0][1..] == a[i].points;
      assert InkOf(b[i]).path[0][1..] == b[i].points;
    }
  }

  /** The cursor preview puts its glyph on top of what is visible, at
      (x - size, y + size) in a font four times the size. */
  lemma PaintCursor(c: Canvas, cur: Cursor)
    ensures Paint(c, CursorOps(cur)) == c.(marks := c.marks + [GlyphOf(cur)], fontPx := 4 * cur.size)
  {
    var font := SetFont(cur.size * 4);
    var text := FillText(cur.glyph, Point(cur.at.x - cur.size, cur.at.y + cur.size));
    PaintAppend(c, [font], [text]);
    PaintOne(c, font);
    PaintOne(Exec(c, font), text);
  }

  /** The redraw listener as a loop over `lines`, each stroke replayed by a
      loop over its points, as `forEach` and `execute` do; the calls it
      collects are exactly `Redraw(lines)`. */
  method ReplayLines(lines: seq<Stroke>) returns (ops: seq<Op>)
    requires AllReplayable(lines)
    ensures ops == Redraw(lines)
  {
    ops := [ClearAll];
    var i := 0;
    while i < |lines|
      invariant 0 <= i <= |lines|
      invariant ops == [ClearAll] + StrokesOps(lines[..i])
    {
      var one := ReplayStroke(lines[i]);
      assert lines[..i + 1][..i] == lines[..i];
      ops := ops + one;
      i := i + 1;
    }
    assert lines[..i] == lines;
  }

  /** `lineCommand.execute` as a loop over the points. */
  method ReplayStroke(st: Stroke) returns (ops: seq<Op>)
    requires Replayable(st)
    ensures ops == StrokeOps(st)
  {
    ops := [SetLineWidth(st.thickness), BeginPath, MoveTo(st.points[0])];
    var j := 0;
    while j < |st.points|
      invariant 0 <= j <= |st.points|
      invariant ops == [SetLineWidth(st.thickness), BeginPath, MoveTo(st.points[0])] + LineTos(st.points[..j])
    {
      LineTosAppend(st.points[..j], [st.points[j]]);
      assert st.points[..j + 1] == st.points[..j] + [st.points[j]];
      ops := ops + [LineTo(st.points[j])];
      j := j + 1;
    }
    assert st.points[..j] == st.points;
    ops := ops + [StrokePath];
  }
}

=== FILE: scenarios.dfy ===
/** Whole interaction sequences: strokes committed by clicks, undone and
    redone in bulk, and the branching and tool-selection behaviours seen
    from the user's side. */
module Scenarios {
  import opened Drawing
  import opened Sketchpad
  import opened Events
  import opened History

  /** A click (press and release without moving) at each point of `ps`. */
  function Taps(ps: seq<Point>): (es: seq<Event>)
    ensures |es| == 2 * |ps|
    decreases |ps|
  {
    if ps == [] then [] else [Down(ps[0]), Up] + Taps(ps[1..])
  }

  /** The one-point strokes the clicks of `ps` leave, with thickness `t`. */
  function Dots(ps: seq<Point>, t: int): (ds: seq<Stroke>)
    ensures |ds| == |ps|
    ensures forall i :: 0 <= i < |ps| ==> ds[i] == Begin(ps[i], t)
    decreases |ps|
  {
    if ps == [] then [] else [Begin(ps[0], t)] + Dots(ps[1..], t)
  }

  /** `n` clicks of UNDO, as events. */
  function Undos(n: nat): (es: seq<Event>)
    ensures |es| == n
    decreases n
  {
    if n == 0 then [] else [UndoClick] + Undos(n - 1)
  }

  /** `n` clicks of REDO, as events. */
  function Redos(n: nat): (es: seq<Event>)
    ensures |es| == n
    decreases n
  {
    if n == 0 then [] else [RedoClick] + Redos(n - 1)
  }

  lemma {:induction false} RunUndos(s: State, n: nat)
    ensures Run(s, Undos(n)) == UndoTimes(s, n)
    decreases n
  {
    if n > 0 {
      assert Undos(n)[0] == UndoClick;
      assert Undos(n)[1..] == Undos(n - 1);
      RunUndos(Undo(s), n - 1);
    }
  }

  lemma {:induction false} RunRedos(s: State, n: nat)
    ensures Run(s, Redos(n)) == RedoTimes(s, n)
    decreases n
  {
    if n > 0 {
      assert Redos(n)[0] == RedoClick;
      assert Redos(n)[1..] == Redos(n - 1);
      RunRedos(Redo(s), n - 1);
    }
  }

  /** Clicking at each point of a non-empty `ps` commits
      one stroke per click, in order, with the selected thickness, and
      leaves nothing to redo. */
  lemma {:induction false} TapsCommit(s: State, ps: seq<Point>)
    requires ps != []
    ensures var r := Run(s, Taps(ps));
      && r.lines == s.lines + Dots(ps, s.currentMarkerThickness)
      && r.redoLines == []
      && !r.isDrawing
      && r.currentMarkerThickness == s.currentMarkerThickness
    decreases |ps|
  {
    var t := s.currentMarkerThickness;
    var rest := ps[1..];
    var u := Tap(s, ps[0]);
    var r := Run(s, Taps(ps));
    assert r == Run(u, Taps(rest)) by {
      TapRuns(s, ps[0], Taps(rest));
      assert Taps(ps) == [Down(ps[0]), Up] + Taps(rest);
    }
    var line := s.lines + [Begin(ps[0], t)];
    assert u.lines == line && u.redoLines == [] && !u.isDrawing && u.currentMarkerThickness == t by {
      TapCommits(s, ps[0]);
    }
    if rest == [] {
      assert r == u;
      assert Dots(ps, t) == [Begin(ps[0], t)] + [];
    } else {
      assert r.lines == line + Dots(rest, t) && r.redoLines == [] && !r.isDrawing
          && r.currentMarkerThickness == t by {
        TapsCommit(u, rest);
      }
      assert Dots(ps, t) == [Begin(ps[0], t)] + Dots(rest, t);
      AppendAssoc(s.lines, [Begin(ps[0], t)], Dots(rest, t));
    }
  }

  /** The state after one click at `p`. */
  function Tap(s: State, p: Point): State {
    MouseUp(MouseDown(s, p))
  }

  /** A click at `p` commits the one-point stroke at `p`. */
  lemma TapCommits(s: State, p: Point)
    ensures Tap(s, p).lines == s.lines + [Begin(p, s.currentMarkerThickness)]
    ensures Tap(s, p).redoLines == [] && !Tap(s, p).isDrawing
    ensures Tap(s, p).currentMarkerThickness == s.currentMarkerThickness
  {
    var d := MouseDown(s, p);
    assert d.lines == d.lines[..|s.lines|] + [d.lines[|s.lines|]];
  }

  /** A trace starting with a click runs the click, then the rest. */
  lemma TapRuns(s: State, p: Point, rest: seq<Event>)
    ensures Run(s, [Down(p), Up] + rest) == Run(Tap(s, p), rest)
  {
    assert [Down(p), Up] + rest == [Down(p)] + ([Up] + rest);
    RunCons(s, Down(p), [Up] + rest);
    RunCons(MouseDown(s, p), Up, rest);
  }

  /** N clicks followed by N UNDOs: the canvas is back to what it was and
      the redo stack holds the N new strokes in reverse click order. N REDOs
      then bring them all back, in click order. */
  lemma CommitUndoRedo(s: State, ps: seq<Point>)
    requires ps != []
    ensures var u := Run(s, Taps(ps) + Undos(|ps|));
      && u.lines == s.lines
      && u.redoLines == Reverse(Dots(ps, s.currentMarkerThickness))
    ensures var r := Run(s, Taps(ps) + Undos(|ps|) + Redos(|ps|));
      && r.lines == s.lines + Dots(ps, s.currentMarkerThickness)
      && r.redoLines == []
  {
    var n := |ps|;
    var d := Run(s, Taps(ps));
    TapsCommit(s, ps);
    RunAppend(s, Taps(ps), Undos(n));
    RunUndos(d, n);
    UndoTimesMovesSuffix(d, n);
    assert d.lines[..|d.lines| - n] == s.lines;
    assert d.lines[|d.lines| - n..] == Dots(ps, s.currentMarkerThickness);
    RunAppend(s, Taps(ps) + Undos(n), Redos(n));
    RunRedos(UndoTimes(d, n), n);
    RedoTimesAfterUndoTimes(d, n);
  }

  /** Drawing after an UNDO branches the history: with strokes A and B
      committed, UNDO then a new stroke C leaves [A, C] visible and B
      beyond reach of REDO. */
  lemma BranchDiscardsRedo(s: State, a: Point, b: Point, c: Point)
    ensures var r := Run(s, [Down(a), Up, Down(b), Up, UndoClick, Down(c), Up]);
      var t := s.currentMarkerThickness;
      && r.lines == s.lines + [Begin(a, t), Begin(c, t)]
      && r.redoLines == []
      && Redo(r) == r
  {
    var t := s.currentMarkerThickness;
    var s1 := Tap(s, a);
    var u := Undo(Tap(s1, b));
    var r := Tap(u, c);
    BranchTrace(s, a, b, c);
    assert s1.lines == s.lines + [Begin(a, t)] && s1.currentMarkerThickness == t by {
      TapCommits(s, a);
    }
    assert u.lines == s1.lines && u.currentMarkerThickness == t by {
      var s2 := Tap(s1, b);
      TapCommits(s1, b);
      SnocInjective(u.lines, s2.lines[|s2.lines| - 1], s1.lines, Begin(b, t));
    }
    assert r.lines == u.lines + [Begin(c, t)] && r.redoLines == [] by {
      TapCommits(u, c);
    }
    AppendAssoc(s.lines, [Begin(a, t)], [Begin(c, t)]);
    assert [Begin(a, t)] + [Begin(c, t)] == [Begin(a, t), Begin(c, t)];
  }

  /** The branching trace, click by click. */
  lemma BranchTrace(s: State, a: Point, b: Point, c: Point)
    ensures Run(s, [Down(a), Up, Down(b), Up, UndoClick, Down(c), Up])
         == Tap(Undo(Tap(Tap(s, a), b)), c)
  {
    var s1 := Tap(s, a);
    var s2 := Tap(s1, b);
    var rest2 := [UndoClick, Down(c), Up];
    var rest1 := [Down(b), Up] + rest2;
    assert [Down(a), Up, Down(b), Up, UndoClick, Down(c), Up] == [Down(a), Up] + rest1;
    TapRuns(s, a, rest1);
    TapRuns(s1, b, rest2);
    assert rest2 == [UndoClick] + ([Down(c), Up] + []);
    RunCons(s2, UndoClick, [Down(c), Up] + []);
    TapRuns(Undo(s2), c, []);
  }

  /** Choosing THIN then THICK before a stroke: the new stroke carries the
      thick marker's 10, and strokes made before keep theirs. */
  lemma ToolChangeAffectsOnlyNewStrokes(s: State, p: Point)
    ensures var r := Run(s, [ThinClick, ThickClick, Down(p)]);
      && |r.lines| == |s.lines| + 1
      && r.lines[|s.lines|] == Begin(p, 10)
      && (forall i :: 0 <= i < |s.lines| ==> r.lines[i].thickness == s.lines[i].thickness)
  {
    var es := [ThinClick, ThickClick, Down(p)];
    var t1 := SelectThin(s);
    var t2 := SelectThick(t1);
    assert es[1..] == [ThickClick, Down(p)];
    assert es[1..][1..] == [Down(p)];
    assert Run(s, es) == Run(t1, [ThickClick, Down(p)]);
    assert Run(t1, [ThickClick, Down(p)]) == Run(t2, [Down(p)]);
    assert Run(t2, [Down(p)]) == Run(MouseDown(t2, p), []);
    var r := Run(s, es);
    forall i | 0 <= i < |s.lines|
      ensures r.lines[i].thickness == s.lines[i].thickness
    {
      assert r.lines[i] == r.lines[..|s.lines|][i];
    }
  }

  /** An UNDO during a drag, which the invariants leave out: the model's
      next mousemove grows the last visible stroke, here the committed
      stroke at `a`, while the undone stroke at `p` stays as it was on the
      redo stack. */
  lemma UndoMidDragGrowsCommitted(a: Point, p: Point, q: Point)
    ensures var r := Run(Initial, [Down(a), Up, Down(p), UndoClick, Move(q)]);
      && r.lines == [Stroke([a, q], ThinThickness)]
      && r.redoLines == [Stroke([p], ThinThickness)]
      && r.isDrawing
  {
    var s1 := Tap(Initial, a);
    var u := Undo(MouseDown(s1, p));
    MidDragTrace(a, p, q);
    assert s1.lines == [Stroke([a], ThinThickness)] by {
      TapCommits(Initial, a);
    }
    assert u.lines == s1.lines && u.redoLines == [Stroke([p], ThinThickness)] && u.isDrawing;
    assert MouseMove(u, q).lines == [Stroke([a] + [q], ThinThickness)];
    assert [a] + [q] == [a, q];
  }

  /** The trace of `UndoMidDragGrowsCommitted`, event by event. */
  lemma MidDragTrace(a: Point, p: Point, q: Point)
    ensures Run(Initial, [Down(a), Up, Down(p), UndoClick, Move(q)])
         == MouseMove(Undo(MouseDown(Tap(Initial, a), p)), q)
  {
    var s1 := Tap(Initial, a);
    var d := MouseDown(s1, p);
    var u := Undo(d);
    assert [Down(a), Up, Down(p), UndoClick, Move(q)] == [Down(a), Up] + [Down(p), UndoClick, Move(q)];
    TapRuns(Initial, a, [Down(p), UndoClick, Move(q)]);
    assert [Down(p), UndoClick, Move(q)] == [Down(p)] + [UndoClick, Move(q)];
    RunCons(s1, Down(p), [UndoClick, Move(q)]);
    assert [UndoClick, Move(q)] == [UndoClick] + [Move(q)];
    RunCons(d, UndoClick, [Move(q)]);
    RunOne(u, Move(q));
  }
}

=== FILE: screen.dfy ===
/** What each handler draws. Redraw and cursor-preview requests are
    delivered synchronously, so a handler's drawing is a fixed list of
    canvas calls computed from the state before and after it. */
module Screen {
  import opened Drawing
  import opened Sketchpad
  import opened Events
  import opened Surface
  import opened Render

  /** Sound strokes have a first point and a positive thickness. */
  lemma SoundInkable(lines: seq<Stroke>)
    requires SoundStrokes(lines)
    ensures Inkable(lines)
  {
  }

  /** The canvas calls a handler makes, in order. A redraw request replays
      the strokes; a cursor request replays the strokes and then draws the
      cursor preview on top. */
  function Output(s: State, e: Event): seq<Op>
    requires Sound(s)
  {
    StepSound(s, e);
    var r := Step(s, e);
    match e
    case Down(_) => Redraw(r.lines)
    case Move(p) =>
      Redraw(s.lines) + CursorOps(PreviewAt(s, p)) + (if s.isDrawing then Redraw(r.lines) else [])
    case Up => Redraw(r.lines)
    case Leave(p) => Redraw(r.lines) + Redraw(r.lines) + CursorOps(PreviewAt(s, p))
    case Enter(p) => Redraw(r.lines) + CursorOps(PreviewAt(s, p))
    case ClearClick => [ClearAll]
    case UndoClick => if s.lines != [] then Redraw(r.lines) else []
    case RedoClick => if s.redoLines != [] then Redraw(r.lines) else []
    case ThinClick => []
    case ThickClick => []
  }

  /** Whether the cursor preview is left visible by the handler: it is drawn
      by every cursor request, but a drag's own redraw then wipes it. */
  predicate CursorShown(s: State, e: Event) {
    e.Enter? || e.Leave? || (e.Move? && !s.isDrawing)
  }

  /** The handlers that draw nothing: tool selection, and UNDO or REDO
      with nothing to move. */
  lemma SilentHandlers(s: State, e: Event)
    requires Sound(s)
    ensures Output(s, e) == [] <==>
      e.ThinClick? || e.ThickClick? || (e.UndoClick? && s.lines == []) || (e.RedoClick? && s.redoLines == [])
  {
  }

  /** After any handler that draws, the surface shows exactly the strokes
      of the new state in draw order, topped by the cursor preview when the
      handler leaves it visible, whatever the surface showed before. */
  lemma ScreenAfterEvent(s: State, e: Event, c: Canvas)
    requires Sound(s)
    requires Output(s, e) != []
    ensures Sound(Step(s, e))
    ensures Paint(c, Output(s, e)).marks
         == Inks(Step(s, e).lines) + (if CursorShown(s, e) then [GlyphOf(PreviewAt(s, e.p))] else [])
  {
    StepSound(s, e);
    var r := Step(s, e);
    var shown := Paint(c, Output(s, e)).marks;
    SoundInkable(r.lines);
    match e
    case Move(p) => {
      ScreenAfterMove(s, p, c);
    }
    case Leave(p) => {
      ScreenAfterLeave(s, p, c);
    }
    case Enter(p) => {
      SoundInkable(s.lines);
      RedrawThenCursor(c, s.lines, PreviewAt(s, p));
    }
    case ClearClick => {
      PaintOne(c, ClearAll);
      assert shown == Inks(r.lines) + [];
    }
    case ThinClick => {
      assert false;
    }
    case ThickClick => {
      assert false;
    }
    case UndoClick => {
      if s.lines == [] {
        assert false;
      } else {
        ScreenAfterRedraw(s, e, c);
      }
    }
    case RedoClick => {
      if s.redoLines == [] {
        assert false;
      } else {
        ScreenAfterRedraw(s, e, c);
      }
    }
    case Down(_) => {
      ScreenAfterRedraw(s, e, c);
    }
    case Up => {
      ScreenAfterRedraw(s, e, c);
    }
  }

  /** The handlers whose only drawing is a redraw request. */
  lemma ScreenAfterRedraw(s: State, e: Event, c: Canvas)
    requires Sound(s)
    requires e.Down? || e.Up? || (e.UndoClick? && s.lines != []) || (e.RedoClick? && s.redoLines != [])
    ensures Sound(Step(s, e))
    ensures Paint(c, Output(s, e)).marks == Inks(Step(s, e).lines)
  {
    StepSound(s, e);
    var r := Step(s, e);
    SoundInkable(r.lines);
    assert Output(s, e) == Redraw(r.lines);
    RedrawShowsLines(c, r.lines);
  }

  /** A cursor request: the strokes, then the cursor glyph on top. */
  lemma RedrawThenCursor(c: Canvas, lines: seq<Stroke>, cur: Cursor)
    requires Inkable(lines)
    ensures Paint(c, Redraw(lines) + CursorOps(cur)).marks == Inks(lines) + [GlyphOf(cur)]
  {
    PaintAppend(c, Redraw(lines), CursorOps(cur));
    RedrawShowsLines(c, lines);
    PaintCursor(Paint(c, Redraw(lines)), cur);
  }

  /** mouseleave: a redraw, then a cursor request; the glyph stays on top. */
  lemma ScreenAfterLeave(s: State, p: Point, c: Canvas)
    requires Sound(s)
    ensures Paint(c, Output(s, Leave(p))).marks == Inks(s.lines) + [GlyphOf(PreviewAt(s, p))]
  {
    var cur := PreviewAt(s, p);
    var rest := Redraw(s.lines) + CursorOps(cur);
    SoundInkable(s.lines);
    assert Output(s, Leave(p)) == Redraw(s.lines) + rest by {
      AppendAssoc(Redraw(s.lines), Redraw(s.lines), CursorOps(cur));
    }
    PaintAppend(c, Redraw(s.lines), rest);
    RedrawThenCursor(Paint(c, Redraw(s.lines)), s.lines, cur);
  }

  /** mousemove: the cursor request shows the strokes and the glyph; during
      a drag the following redraw shows the grown strokes and wipes the
      glyph. */
  lemma ScreenAfterMove(s: State, p: Point, c: Canvas)
    requires Sound(s) && Inkable(MouseMove(s, p).lines)
    ensures Paint(c, Output(s, Move(p))).marks
         == Inks(MouseMove(s, p).lines) + (if s.isDrawing then [] else [GlyphOf(PreviewAt(s, p))])
  {
    var cur := PreviewAt(s, p);
    var r := MouseMove(s, p);
    var first := Redraw(s.lines) + CursorOps(cur);
    SoundInkable(s.lines);
    RedrawThenCursor(c, s.lines, cur);
    if s.isDrawing {
      assert Output(s, Move(p)) == first + Redraw(r.lines);
      PaintAppend(c, first, Redraw(r.lines));
      RedrawShowsLines(Paint(c, first), r.lines);
    } else {
      assert Output(s, Move(p)) == first + [];
      assert first + [] == first;
    }
  }
}

=== FILE: sketchpad.dfy ===
/** The sketchpad's state and one pure transition per event handler: the
    mouse gesture (down, move, up, leave, enter) and the CLEAR, UNDO, REDO,
    THIN and THICK buttons. */
module Sketchpad {
  import opened Drawing
  import opened Options

  /** The marker thicknesses and preview glyphs of the two tools. */
  const ThinThickness := 3
  const ThinPreview := "*"
  const ThickThickness := 10
  const ThickPreview := "o"

  /** Everything the handlers read or write.
      - `lines`: the visible strokes, in draw order;
      - `redoLines`: the undone strokes, most recently undone last;
      - `isDrawing`: a drag is in progress;
      - `currentMarkerThickness`, `currentMarkerPreview`: the selected tool;
      - `cursor`: the cursor preview, absent until the first mousemove,
        mouseenter or mouseleave. */
  datatype State = State(
    lines: seq<Stroke>,
    redoLines: seq<Stroke>,
    isDrawing: bool,
    currentMarkerThickness: int,
    currentMarkerPreview: string,
    cursor: Option<Cursor>)

  /** The state at page load: nothing drawn, the thin marker selected. */
  const Initial := State([], [], false, ThinThickness, ThinPreview, None)

  /** The two selectable tools. */
  predicate IsTool(thickness: int, preview: string) {
    (thickness == ThinThickness && preview == ThinPreview)
    || (thickness == ThickThickness && preview == ThickPreview)
  }

  /** The cursor preview a pointer event at `p` creates: it captures the
      tool selected at that moment. */
  function PreviewAt(s: State, p: Point): (cur: Cursor)
    ensures cur.at == p
    ensures cur.size == s.currentMarkerThickness && cur.glyph == s.currentMarkerPreview
  {
    Cursor(p, s.currentMarkerThickness, s.currentMarkerPreview)
  }

  /** mousedown at `p`: start a new stroke with the current thickness, push
      it onto `lines`, and discard the redo history. */
  function MouseDown(s: State, p: Point): (r: State)
    ensures |r.lines| == |s.lines| + 1
    ensures r.lines[..|s.lines|] == s.lines
    ensures r.lines[|s.lines|].points == [p]
    ensures r.lines[|s.lines|].thickness == s.currentMarkerThickness
    ensures r.redoLines == []
    ensures r.isDrawing
    ensures r.currentMarkerThickness == s.currentMarkerThickness
    ensures r.currentMarkerPreview == s.currentMarkerPreview
    ensures r.cursor == s.cursor
  {
    s.(isDrawing := true, lines := s.lines + [Begin(p, s.currentMarkerThickness)], redoLines := [])
  }

  /** mousemove to `p`: the cursor preview follows the pointer; while a
      drag is in progress the stroke being drawn, the last of `lines`,
      grows by `p`. */
  function MouseMove(s: State, p: Point): (r: State)
    ensures r.cursor == Some(PreviewAt(s, p))
    ensures |r.lines| == |s.lines|
    ensures r.redoLines == s.redoLines
    ensures r.isDrawing == s.isDrawing
    ensures r.currentMarkerThickness == s.currentMarkerThickness
    ensures r.currentMarkerPreview == s.currentMarkerPreview
    ensures !s.isDrawing || s.lines == [] ==> r.lines == s.lines
    ensures s.isDrawing && s.lines != [] ==>
      var n := |s.lines|;
      && r.lines[..n - 1] == s.lines[..n - 1]
      && r.lines[n - 1].points == s.lines[n - 1].points + [p]
      && r.lines[n - 1].thickness == s.lines[n - 1].thickness
  {
    var s' := s.(cursor := Some(PreviewAt(s, p)));
    if s.isDrawing && s.lines != [] then
      var n := |s.lines|;
      s'.(lines := s.lines[..n - 1] + [Grow(s.lines[n - 1], p)])
    else
      s'
  }

  /** mouseup: the gesture ends; nothing drawn changes. */
  function MouseUp(s: State): (r: State)
    ensures !r.isDrawing
    ensures r.lines == s.lines && r.redoLines == s.redoLines
    ensures r.currentMarkerThickness == s.currentMarkerThickness
    ensures r.currentMarkerPreview == s.currentMarkerPreview
    ensures r.cursor == s.cursor
  {
    s.(isDrawing := false)
  }

  /** mouseleave at `p`: the gesture ends and the cursor preview moves to
      the exit point; nothing drawn changes. */
  function MouseLeave(s: State, p: Point): (r: State)
    ensures !r.isDrawing
    ensures r.lines == s.lines && r.redoLines == s.redoLines
    ensures r.currentMarkerThickness == s.currentMarkerThickness
    ensures r.currentMarkerPreview == s.currentMarkerPreview
    ensures r.cursor == Some(PreviewAt(s, p))
  {
    s.(isDrawing := false, cursor := Some(PreviewAt(s, p)))
  }

  /** mouseenter at `p`: only the cursor preview moves. */
  function MouseEnter(s: State, p: Point): (r: State)
    ensures r.lines == s.lines && r.redoLines == s.redoLines
    ensures r.isDrawing == s.isDrawing
    ensures r.currentMarkerThickness == s.currentMarkerThickness
    ensures r.currentMarkerPreview == s.currentMarkerPreview
    ensures r.cursor == Some(PreviewAt(s, p))
  {
    s.(cursor := Some(PreviewAt(s, p)))
  }

  /** CLEAR: every visible stroke goes; the redo history is kept. */
  function Clear(s: State): (r: State)
    ensures r.lines == []
    ensures r.redoLines == s.redoLines
    ensures r.isDrawing == s.isDrawing
    ensures r.currentMarkerThickness == s.currentMarkerThickness
    ensures r.currentMarkerPreview == s.currentMarkerPreview
    ensures r.cursor == s.cursor
  {
    s.(lines := [])
  }

  /** UNDO: the last visible stroke moves onto the top of the redo stack;
      with nothing visible, nothing happens. */
  function Undo(s: State): (r: State)
    ensures s.lines == [] ==> r == s
    ensures s.lines != [] ==>
      && s.lines == r.lines + [s.lines[|s.lines| - 1]]
      && r.redoLines == s.redoLines + [s.lines[|s.lines| - 1]]
    ensures r.isDrawing == s.isDrawing && r.cursor == s.cursor
    ensures r.currentMarkerThickness == s.currentMarkerThickness
    ensures r.currentMarkerPreview == s.currentMarkerPreview
    ensures |r.lines| + |r.redoLines| == |s.lines| + |s.redoLines|
  {
    if s.lines != [] then
      var n := |s.lines|;
      s.(lines := s.lines[..n - 1], redoLines := s.redoLines + [s.lines[n - 1]])
    else
      s
  }

  /** REDO: the top of the redo stack goes back to the end of `lines`;
      with an empty redo stack, nothing happens. */
  function Redo(s: State): (r: State)
    ensures s.redoLines == [] ==> r == s
    ensures s.redoLines != [] ==>
      && s.redoLines == r.redoLines + [s.redoLines[|s.redoLines| - 1]]
      && r.lines == s.lines + [s.redoLines[|s.redoLines| - 1]]
    ensures r.isDrawing == s.isDrawing && r.cursor == s.cursor
    ensures r.currentMarkerThickness == s.currentMarkerThickness
    ensures r.currentMarkerPreview == s.currentMarkerPreview
    ensures |r.lines| + |r.redoLines| == |s.lines| + |s.redoLines|
  {
    if s.redoLines != [] then
      var n := |s.redoLines|;
      s.(lines := s.lines + [s.redoLines[n - 1]], redoLines := s.redoLines[..n - 1])
    else
      s
  }

  /** THIN: select the thin marker. Strokes already made keep the
      thickness they captured. */
  function SelectThin(s: State): (r: State)
    ensures r.currentMarkerThickness == 3 && r.currentMarkerPreview == "*"
    ensures r.lines == s.lines && r.redoLines == s.redoLines
    ensures r.isDrawing == s.isDrawing && r.cursor == s.cursor
  {
    s.(currentMarkerThickness := ThinThickness, currentMarkerPreview := ThinPreview)
  }

  /** THICK: select the thick marker. Strokes already made keep the
      thickness they captured. */
  function SelectThick(s: State): (r: State)
    ensures r.currentMarkerThickness == 10 && r.currentMarkerPreview == "o"
    ensures r.lines == s.lines && r.redoLines == s.redoLines
    ensures r.isDrawing == s.isDrawing && r.cursor == s.cursor
  {
    s.(currentMarkerThickness := ThickThickness, currentMarkerPreview := ThickPreview)
  }
}

=== FILE: surface.dfy ===
/** An abstract 2D drawing surface: the handful of canvas primitives the
    sketchpad uses, as data, and a small semantics saying what each one
    does to what is visible. Pixels, anti-aliasing and font strings are not
    modelled: a stroked path or a filled text is one `Mark`. */
module Surface {
  import opened Drawing

  /** One call on the drawing context. */
  datatype Op =
    | ClearAll                        // clearRect over the whole canvas
    | SetLineWidth(width: int)        // lineWidth = width
    | BeginPath
    | MoveTo(p: Point)
    | LineTo(p: Point)
    | StrokePath                      // stroke()
    | SetFont(px: int)                // font = `${px}px monospace`
    | FillText(text: string, at: Point)

  /** Something visible on the surface: a stroked path (a list of
      sub-paths, each a list of points) or a filled text. */
  datatype Mark =
    | Ink(width: int, path: seq<seq<Point>>)
    | Text(text: string, px: int, at: Point)

  /** The surface: what is visible, in painting order, and the context
      state later calls depend on. */
  datatype Canvas = Canvas(marks: seq<Mark>, lineWidth: int, fontPx: int, path: seq<seq<Point>>)

  /** The effect of one call. Setting a non-positive line width is ignored,
      as the canvas API does; a `LineTo` with no current sub-path starts one. */
  function Exec(c: Canvas, op: Op): Canvas {
    match op
    case ClearAll => c.(marks := [])
    case SetLineWidth(w) => if w > 0 then c.(lineWidth := w) else c
    case BeginPath => c.(path := [])
    case MoveTo(p) => c.(path := c.path + [[p]])
    case LineTo(p) =>
      if c.path == [] then c.(path := [[p]])
      else c.(path := c.path[..|c.path| - 1] + [c.path[|c.path| - 1] + [p]])
    case StrokePath => c.(marks := c.marks + [Ink(c.lineWidth, c.path)])
    case SetFont(px) => c.(fontPx := px)
    case FillText(t, at) => c.(marks := c.marks + [Text(t, c.fontPx, at)])
  }

  /** The effect of a list of calls, in order. */
  function Paint(c: Canvas, ops: seq<Op>): Canvas
    decreases |ops|
  {
    if ops == [] then c else Paint(Exec(c, ops[0]), ops[1..])
  }

  /** Painting one call is executing it. */
  lemma PaintOne(c: Canvas, op: Op)
    ensures Paint(c, [op]) == Exec(c, op)
  {
    assert [op][1..] == [];
  }

  /** Painting two lists of calls is painting the first, then the second. */
  lemma {:induction false} PaintAppend(c: Canvas, a: seq<Op>, b: seq<Op>)
    ensures Paint(c, a + b) == Paint(Paint(c, a), b)
    decreases |a|
  {
    if a == [] {
      assert a + b == b;
    } else {
      assert (a + b)[0] == a[0];
      assert (a + b)[1..] == a[1..] + b;
      PaintAppend(Exec(c, a[0]), a[1..], b);
    }
  }
}
